=== FILE: README.md ===
# tipyNet `send_tip` in Dafny

tipyNet is a Solana program with a web frontend. A sender tips a receiver in SOL or in an
SPL token and leaves a short message. The program stores a receipt, a `DataTransaction`
account, at an address derived from `"tip_transaction"`, the sender and the receiver.

This project models the one instruction, `send_tip`, as a pure step over an abstract world.
It also models the program's error enum, the receipt's layout and the frontend's two
abbreviation helpers.

- `primitives.dfy` (`Primitives`): `u8`, `u64` and `i64` as bounded integers. Also 32-byte
  `Pubkey`s and `Pubkey::default()`.
- `errors.dfy` (`Errors`): the five `TipyError` variants. Anchor numbers them from 6000 in
  declaration order. A decoder inverts the numbering.
- `states.dfy` (`States`): the six-field `DataTransaction` and its Borsh field sizes.
  `INIT_SPACE` is 185 and the allocated `8 + INIT_SPACE` is 193.
- `send_transaction.dfy` (`SendTransaction`): the world, the account context and the error
  sources, plus the step itself. The world holds lamport balances, initialised token accounts
  and occupied receipt slots. Errors come from the program, Anchor, the runtime, the system
  program and the token program. `SendTip` runs these stages in order:
  1. The `init`/`seeds`/`payer` constraint. The slot must be the derived one and must be
     free, and the sender pays the rent.
  2. The 100-byte message check.
  3. The clock read.
  4. Either the system-program transfer, or the manual token-account checks followed by the
     token-program transfer.
- `send_tip_properties.dfy` (`SendTipProperties`): the order in which errors fire, the
  balance effects of both branches, what happens to receipts, and at most one successful tip
  per ordered pair across any run of calls.
- `scenarios.dfy` (`TipScenarios`): the repository's integration scenarios, stated over
  arbitrary distinct keys.
- `formatters.dfy` (`Formatters`): `formatAddress` and `shortenSignature`, built on a model
  of JavaScript's `String.prototype.slice`.

Modelling choices:

- A failed step returns only an error. The world the caller holds is therefore the world
  that remains, which is the runtime's all-or-nothing rollback.
- The clock and the rent-exempt minimum are inputs (`Sysvars`). A clock failure is
  `clock == None`.
- A program-derived address is represented by its seed bytes. The real address is a hash of
  those seeds, and that hash is taken to be collision-free. Keys have a fixed length of
  32 bytes, so the seeds split back into their two keys (`TipRecordAddressDecodes`).
- Receipt slots and wallets are kept in separate maps. On chain a receipt is an ordinary
  account, so a SOL tip whose receiver is an existing receipt's address would credit that
  receipt account. In the model the credit goes to a wallet balance and the receipt's
  lamports stay as they were.
- A message is the UTF-8 byte sequence of the Rust `String`, so the 100 limit counts bytes.
  The error text still says "character".
- Frontend strings are `seq<char>`. A Dafny `char` is a Unicode scalar value and a JavaScript
  string is a sequence of UTF-16 code units. They agree on strings without surrogate pairs,
  such as base58 keys and signatures.

Three consequences of how the code is arranged:

- The `init` constraint on `data_transaction` runs before the handler. A wrong slot address,
  a taken slot or a sender who cannot pay rent therefore fails before the message check.
- `InsufficientFunds`, `ReceiverTokenAccountNotInitialized` and `ClockError` are declared
  but never raised:
  - a lamport shortfall is the system program's "insufficient lamports";
  - a token account that is not an initialised token account fails to unpack, and the token
    library's own error is returned;
  - a clock failure propagates unchanged through `?`.
- Besides both mints, the handler requires the sender to own the sender token account. It
  never checks who owns the receiver token account.

## Model

| member | source | states |
|---|---|---|
| Errors.Code | programs/tipy-net/src/errors.rs:3-15 | every code lies in 6000..6004, and the variant at position code−6000 of the declaration is the variant itself |
| Errors.FromCode | programs/tipy-net/src/errors.rs:3-15 | decoding a number gives a variant exactly for 6000..6004, and that variant's code is the number |
| Errors.Msg | programs/tipy-net/src/errors.rs:5-14 | every variant has a non-empty text, and the `MessageTooLong` text names the 100 limit; `MsgInjective` adds that no two texts coincide |
| Errors.DeclaredCodes | programs/tipy-net/src/errors.rs:4-15 | there are exactly five variants; the i-th declared has code 6000+i; every variant is declared |
| Errors.CodeRoundTrip | programs/tipy-net/src/errors.rs:4-15 | decoding a variant's code returns that variant |
| Errors.CodeInjective | programs/tipy-net/src/errors.rs:4-15 | two variants share a code only if they are the same variant |
| Errors.MsgInjective | programs/tipy-net/src/errors.rs:5-14 | the five `msg` texts are pairwise distinct |
| States.FieldSizes | anchor_project/tipy-net/programs/tipy-net/src/states.rs:5-13 | six field sizes; the message field is a 4-byte length prefix plus its bytes, and the other five fields total 81 bytes |
| States.InitSpace | anchor_project/tipy-net/programs/tipy-net/src/states.rs:4-13 | `INIT_SPACE` is 32+32+8+(4+100)+8+1 (185), summed from the six fields in declaration order |
| States.RecordSpace | anchor_project/tipy-net/programs/tipy-net/src/instructions/send_transaction.rs:12 | the allocation `8 + INIT_SPACE` is 193 bytes, whatever the message |
| States.EncodedSize | anchor_project/tipy-net/programs/tipy-net/src/states.rs:5-13 | a receipt takes 8 + 85 bytes plus its message length |
| States.FitsIffWithinSpace | anchor_project/tipy-net/programs/tipy-net/src/states.rs:9-10 | a receipt fits the allocation exactly when its message is at most 100 bytes |
| SendTransaction.TipRecordAddress | anchor_project/tipy-net/programs/tipy-net/src/instructions/send_transaction.rs:13-17 | the slot's seeds are the 15-byte tag followed by the two 32-byte keys |
| SendTransaction.TipRecordAddressDecodes | anchor_project/tipy-net/programs/tipy-net/src/instructions/send_transaction.rs:13-17 | the sender and the receiver can be read back from a slot's seeds |
| SendTransaction.TipRecordAddressInjective | anchor_project/tipy-net/programs/tipy-net/src/instructions/send_transaction.rs:13-17 | two ordered pairs share a slot exactly when they are equal |
| SendTransaction.InitRecordSlot | anchor_project/tipy-net/programs/tipy-net/src/instructions/send_transaction.rs:9-19 | succeeds exactly when the slot is the derived one, is free and the sender can pay the rent; otherwise a non-derived address fails with the `seeds` error, then a taken slot with "already in use", then a shortfall with insufficient lamports; on success it charges only the sender, by the rent |
| SendTransaction.SystemTransfer | anchor_project/tipy-net/programs/tipy-net/src/instructions/send_transaction.rs:59-68 | fails exactly on too few lamports (first) or receiver overflow; on success moves `amount`, keeps the two accounts' sum, touches no other balance |
| SendTransaction.DeserializeTokenAccount | anchor_project/tipy-net/programs/tipy-net/src/instructions/send_transaction.rs:72-78 | succeeds exactly for initialised token accounts, returning their state |
| SendTransaction.ValidateTokenAccounts | anchor_project/tipy-net/programs/tipy-net/src/instructions/send_transaction.rs:70-96 | on success both accounts deserialised, the mint is not the default, both mints match it and the sender owns its account; failures are only deserialisation or `InvalidTokenAccount` |
| SendTransaction.TokenTransfer | anchor_project/tipy-net/programs/tipy-net/src/instructions/send_transaction.rs:98-106 | fails exactly when an account is missing or frozen, the source holds too little, the mints differ, the authority does not own the source, or a distinct destination would overflow, with the error of the first such check; on success source down and destination up by `amount`, nothing else changed; a self-transfer changes nothing |
| SendTransaction.NewRecord | anchor_project/tipy-net/programs/tipy-net/src/instructions/send_transaction.rs:50-55 | the receipt's pair derives the same slot as the call's pair, `is_sol` holds exactly for the default mint, and the receipt fits exactly when the message is at most 100 bytes |
| SendTransaction.MoveValue | anchor_project/tipy-net/programs/tipy-net/src/instructions/send_transaction.rs:57-107 | the default mint selects the system transfer; otherwise a validation failure is returned as is, a passed validation hands over to the token transfer, and the step succeeds exactly when both token accounts are initialised, unfrozen, of the tip's mint, the sender owns and funds the source and the destination cannot overflow; lamports and receipts are untouched |
| SendTransaction.SendTip | anchor_project/tipy-net/programs/tipy-net/src/instructions/send_transaction.rs:9-110 | a SOL tip succeeds exactly when the slot is derived, free and rent-payable, the message is at most 100 bytes, the clock is readable and the sender covers rent + amount without overflowing the receiver; a token tip succeeds exactly under the same first conditions plus the token conditions of `MoveValue`; on success the receipt is exactly (sender, receiver, amount, message, timestamp, mint == default), fits, and is added at the derived, previously free slot with nothing else in the receipts changed; the only program errors are `MessageTooLong` and `InvalidTokenAccount`; a failed account constraint returns its own error, and past the message and clock a failed value movement returns its error unchanged |
| SendTipProperties.MessageTooLongIff | anchor_project/tipy-net/programs/tipy-net/src/instructions/send_transaction.rs:45 | `MessageTooLong` is returned exactly when the account constraints pass and the message exceeds 100 bytes |
| SendTipProperties.WrongSlotFailsFirst | anchor_project/tipy-net/programs/tipy-net/src/instructions/send_transaction.rs:13-18 | a slot address other than the one derived from the tag, the sender and the receiver fails with the `seeds` error, whatever else the call carries |
| SendTipProperties.RentShortfallFails | anchor_project/tipy-net/programs/tipy-net/src/instructions/send_transaction.rs:9-19 | with the derived, free slot, a sender holding less than the rent fails with the system program's insufficient lamports, for SOL and token tips alike |
| SendTipProperties.ValueMovementErrorSurfaces | anchor_project/tipy-net/programs/tipy-net/src/instructions/send_transaction.rs:57-107 | past the constraints, the message and the clock, the error of the system transfer, the token checks or the token transfer is returned unchanged |
| SendTipProperties.TokenShortfallFails | anchor_project/tipy-net/programs/tipy-net/src/instructions/send_transaction.rs:98-106 | a token tip whose accounts pass the handler's checks and are unfrozen, but whose source holds less than `amount`, fails with the token program's insufficient funds |
| SendTipProperties.OccupiedSlotFailsFirst | anchor_project/tipy-net/programs/tipy-net/src/instructions/send_transaction.rs:9-19 | a taken slot fails with "already in use" whatever the message, mint or balances |
| SendTipProperties.ClockFailurePropagatesRaw | anchor_project/tipy-net/programs/tipy-net/src/instructions/send_transaction.rs:47 | an unreadable clock gives the runtime's error, not `ClockError` |
| SendTipProperties.UnraisedErrors | anchor_project/tipy-net/programs/tipy-net/src/instructions/send_transaction.rs:44-110 | `InsufficientFunds`, `ReceiverTokenAccountNotInitialized` and `ClockError` are never returned (a per-variant corollary of `SendTip`'s contract) |
| SendTipProperties.NativeInsufficientIff | anchor_project/tipy-net/programs/tipy-net/src/instructions/send_transaction.rs:59-68 | past the slot, message and clock checks, a SOL tip fails with insufficient lamports exactly when the sender holds less than rent + amount |
| SendTipProperties.NativeSuccessBalances | anchor_project/tipy-net/programs/tipy-net/src/instructions/send_transaction.rs:57-68 | a SOL tip raises the receiver by `amount`, lowers the sender by `amount` + rent, conserves lamports across sender, receiver and slot, and leaves token accounts and other balances alone |
| SendTipProperties.MintGuardNeverFires | anchor_project/tipy-net/programs/tipy-net/src/instructions/send_transaction.rs:80-83 | with a non-default mint the validation equals the same checks without the guard |
| SendTipProperties.UndeserialisableTokenAccountFailsFirst | anchor_project/tipy-net/programs/tipy-net/src/instructions/send_transaction.rs:72-78 | an uninitialised sender or receiver token account fails with the unpack error before any mint or owner check |
| SendTipProperties.InvalidTokenAccountIff | anchor_project/tipy-net/programs/tipy-net/src/instructions/send_transaction.rs:84-95 | once both accounts deserialise, `InvalidTokenAccount` is returned exactly when the sender mint, the receiver mint or the sender ownership is wrong |
| SendTipProperties.ReceiverTokenOwnerUnchecked | anchor_project/tipy-net/programs/tipy-net/src/instructions/send_transaction.rs:88-95 | changing the owner of the receiver's token account changes neither the outcome nor the receipt |
| SendTipProperties.TokenSuccessBalances | anchor_project/tipy-net/programs/tipy-net/src/instructions/send_transaction.rs:99-106 | a token tip moves `amount` between the two token accounts and conserves their sum; other token accounts are unchanged; only the rent leaves the sender's lamports |
| SendTipProperties.WrittenRecordFits | anchor_project/tipy-net/programs/tipy-net/src/states.rs:9-10 | every stored receipt fits the 193-byte allocation |
| SendTipProperties.SendTipPreservesRecords | anchor_project/tipy-net/programs/tipy-net/src/instructions/send_transaction.rs:9-19 | receipts stay in their pair's slot and within bounds; a tip keeps old receipts unchanged and adds exactly its own slot |
| SendTipProperties.OtherPairsStayFree | anchor_project/tipy-net/programs/tipy-net/src/instructions/send_transaction.rs:13-17 | a tip never takes the slot of a different ordered pair |
| SendTipProperties.SecondTipSamePairFails | anchor_project/tipy-net/programs/tipy-net/src/instructions/send_transaction.rs:9-19 | after a successful tip, any later tip between the same ordered pair fails with "already in use" |
| SendTipProperties.FailedCallSkipped | anchor_project/tipy-net/programs/tipy-net/src/instructions/send_transaction.rs:44-110 | a run that starts with a failing call, once or twice, ends exactly as the run without it |
| SendTipProperties.Replay | anchor_project/tipy-net/programs/tipy-net/src/instructions/send_transaction.rs:44-110 | a run of calls yields at most one receipt per call and never removes a receipt slot |
| SendTipProperties.ReplaySlots | anchor_project/tipy-net/programs/tipy-net/src/instructions/send_transaction.rs:9-19 | along any run of calls, receipts are never removed; every successful tip's slot was free before and is taken after; no two share a slot |
| SendTipProperties.AtMostOneTipPerPair | anchor_project/tipy-net/programs/tipy-net/src/instructions/send_transaction.rs:9-19 | along any run of calls, at most one tip succeeds per ordered (sender, receiver) pair |
| TipScenarios.SolTipSucceeds | anchor_project/tipy-net/tests/tipy-net.ts:104-140 | 0.1 SOL from a 10 SOL wallet succeeds with an `isSol` receipt of the call's fields and moves the lamports |
| TipScenarios.TokenTipSucceeds | anchor_project/tipy-net/tests/tipy-net.ts:142-186 | 1,000 tokens out of 1,000,000 leave 999,000 and 1,000, with a non-SOL receipt |
| TipScenarios.LongMessageFails | anchor_project/tipy-net/tests/tipy-net.ts:189-224 | a 101-byte message fails with `MessageTooLong`, code 6000 |
| TipScenarios.OverdrawnSolTipFails | anchor_project/tipy-net/tests/tipy-net.ts:226-259 | 1,000 SOL from a 10 SOL wallet fails with insufficient lamports |
| TipScenarios.WrongSenderMintFails | anchor_project/tipy-net/tests/tipy-net.ts:261-296 | a sender token account of another mint fails with `InvalidTokenAccount`, code 6002 |
| TipScenarios.WrongReceiverMintFails | anchor_project/tipy-net/tests/tipy-net.ts:298-328 | a receiver token account of another mint fails with `InvalidTokenAccount` |
| Formatters.Abbreviate | frontend/tipy-net/src/utils/formatters.ts:3 | `s.slice(0, 8) + "..." + s.slice(-8)` equals s[..min(8,len(s))] + "..." + s[max(0,len(s)−8)..] |
| Formatters.FormatAddress | frontend/tipy-net/src/utils/formatters.ts:1-4 | `null`, `undefined` and `""` give "Unknown"; any other string gives that shape |
| Formatters.ShortenSignature | frontend/tipy-net/src/utils/formatters.ts:20-22 | the signature comes out in the same shape, with no guard for the empty string |
| Formatters.UnknownIffFalsy | frontend/tipy-net/src/utils/formatters.ts:1-4 | "Unknown" is returned exactly for the falsy inputs; no real string abbreviates to it |
| Formatters.AbbreviateLength | frontend/tipy-net/src/utils/formatters.ts:3 | the output has 2·min(8,len(s))+3 characters, so 19 once len(s) ≥ 16 |
| Formatters.AbbreviateShort | frontend/tipy-net/src/utils/formatters.ts:3 | a string of at most 8 characters comes out as s + "..." + s |
| Formatters.AbbreviateParts | frontend/tipy-net/src/utils/formatters.ts:3 | the output is a prefix of s, then the ellipsis, then a suffix of s, each part of min(8,len(s)) characters |
| Formatters.ShortenEmptySignature | frontend/tipy-net/src/utils/formatters.ts:20-22 | `shortenSignature("")` is "..." |
| Formatters.FormatAgreesWithShorten | frontend/tipy-net/src/utils/formatters.ts:1-22 | on any non-empty string `formatAddress` and `shortenSignature` agree |

## Left out

- The signer check on `sender` and the `mut` markers. A transaction without the sender's
  signature is rejected before this logic runs.
- The `Program<System>` and `Program<Token>` account checks (Anchor's `InvalidProgramId`).
  The model assumes the genuine system and token programs are passed.
- Anchor's `init` path for a slot that already holds lamports without data. That path
  tops the slot up instead of creating it. The model assumes a free slot holds no lamports.
- The runtime's check, after the instruction, that every touched account is either empty or
  rent-exempt. This check can reject a tip that leaves the sender or the receiver below the
  rent-exempt minimum. It is host policy applied outside the program's code.
- The actual rent value and PDA bump search. Rent is an input. The address is represented by
  its seeds, because the hash cannot be computed here.
- SPL token delegates and wrapped-SOL token accounts. With a delegate, or a native mint, the
  token program adjusts delegated amounts or lamports as well.
- Token accounts owned by another program. Every token account in the world is taken to be
  owned by the token program.
- Why a token account fails to unpack. The token library distinguishes data of the wrong length
  (`InvalidAccountData`) from an uninitialised account (`UninitializedAccount`). The model
  reports both as one error, `TokenAccountUnpackFailed`, and covers only the second cause.
- Strings with surrogate pairs in the frontend helpers. JavaScript slices such a string by UTF-16
  code unit and can split a pair. Dafny `char`s cannot represent lone surrogates.
- Borsh encoding of the receipt and of the instruction arguments. This includes rejection of
  invalid UTF-8. Only the field sizes are modelled.
- `formatAmount` and `formatDate` (frontend/tipy-net/src/utils/formatters.ts:6-18). They use
  floating-point division and locale-dependent date formatting.
- The React components, wallet wiring, `program.ts` RPC plumbing, the local-storage cache
  and `lib.rs`. The last is a one-line dispatcher into `send_tip`.

=== FILE: errors.dfy ===
/** The program's custom error enum and the numbering Anchor gives it. */
module Errors {
  import opened Primitives

  /** Anchor numbers the variants of an `#[error_code]` enum from this offset. */
  const ERROR_CODE_OFFSET: nat := 6000

  /** The five declared variants, in declaration order. */
  datatype TipyError =
    | MessageTooLong
    | InsufficientFunds
    | InvalidTokenAccount
    | ReceiverTokenAccountNotInitialized
    | ClockError

  /** Position of the variant in the declaration. */
  function Index(e: TipyError): (i: nat)
    ensures i < |Declared| && Declared[i] == e
  {
    match e
    case MessageTooLong => 0
    case InsufficientFunds => 1
    case InvalidTokenAccount => 2
    case ReceiverTokenAccountNotInitialized => 3
    case ClockError => 4
  }

  /** The number a client sees for this error. */
  function Code(e: TipyError): (c: nat)
    ensures ERROR_CODE_OFFSET <= c < ERROR_CODE_OFFSET + |Declared|
    ensures Declared[c - ERROR_CODE_OFFSET] == e
  {
    ERROR_CODE_OFFSET + Index(e)
  }

  /** The text of the variant's `#[msg(...)]` attribute. */
  function Msg(e: TipyError): (m: string)
    ensures |m| > 0
    ensures e == MessageTooLong ==> |m| >= 19 && m[16..19] == "100"
  {
    match e
    case MessageTooLong => "Message exceeds 100 character limit"
    case InsufficientFunds => "Insufficient funds for transfer"
    case InvalidTokenAccount => "Invalid token account"
    case ReceiverTokenAccountNotInitialized => "Receiver token account not initialized"
    case ClockError => "Clock error"
  }

  /** Every variant, in declaration order. */
  const Declared: seq<TipyError> :=
    [MessageTooLong, InsufficientFunds, InvalidTokenAccount, ReceiverTokenAccountNotInitialized, ClockError]

  /** Decodes an error number back to its variant, as a client does with the IDL's error table. */
  function FromCode(code: int): (r: Option<TipyError>)
    ensures r.Some? <==> ERROR_CODE_OFFSET <= code < ERROR_CODE_OFFSET + 5
    ensures r.Some? ==> Code(r.value) == code
  {
    if ERROR_CODE_OFFSET <= code < ERROR_CODE_OFFSET + |Declared| then
      var e := Declared[code - ERROR_CODE_OFFSET];
      assert Index(e) == code - ERROR_CODE_OFFSET;
      Some(e)
    else
      None
  }

  /** Declaration order fixes the codes 6000 through 6004, one per variant and every variant listed. */
  lemma DeclaredCodes()
    ensures |Declared| == 5
    ensures forall i :: 0 <= i < |Declared| ==> Code(Declared[i]) == ERROR_CODE_OFFSET + i
    ensures forall e: TipyError :: e in Declared
  {
    forall i | 0 <= i < |Declared|
      ensures Code(Declared[i]) == ERROR_CODE_OFFSET + i
    {
      var e := Declared[i];
      assert Declared[Index(e)] == e;
    }
    forall e: TipyError
      ensures e in Declared
    {
      assert Declared[Index(e)] == e;
    }
  }

  /** Decoding inverts numbering, so no two variants share a code. */
  lemma CodeRoundTrip(e: TipyError)
    ensures FromCode(Code(e)) == Some(e)
  {
  }

  lemma CodeInjective(e1: TipyError, e2: TipyError)
    ensures Code(e1) == Code(e2) <==> e1 == e2
  {
  }

  /** The messages are pairwise distinct, so a message alone identifies the variant. */
  lemma MsgInjective(e1: TipyError, e2: TipyError)
    ensures Msg(e1) == Msg(e2) <==> e1 == e2
  {
  }
}

=== FILE: formatters.dfy ===
/** The frontend's two display helpers that abbreviate keys and signatures.
    A JavaScript string is a sequence of UTF-16 code units, while a `char` here is a
    Unicode scalar value; the two agree on strings without surrogate pairs, such as
    the base58 keys and signatures these helpers are given. */
module Formatters {

  /** How many characters are kept at each end. */
  const KEEP: int := 8

  const ELLIPSIS: string := "..."

  const UNKNOWN: string := "Unknown"

  /** A JavaScript value of type `string | undefined | null`. */
  datatype MaybeString = Null | Undefined | Str(s: string)

  /** JavaScript truthiness for that type: `null`, `undefined` and `""` are falsy. */
  predicate Truthy(v: MaybeString)
  {
    v.Str? && |v.s| > 0
  }

  /** The index `String.prototype.slice` resolves an argument to: a negative one
      counts back from the end, and the result is clamped to `[0, len]`. */
  function SliceIndex(i: int, len: nat): (k: nat)
    ensures k <= len
  {
    if i < 0 then (if len + i < 0 then 0 else len + i)
    else if i < len then i else len
  }

  /** `s.slice(start, end)`, `end` defaulting to the length; empty when the
      resolved start is not before the resolved end. */
  function Slice(s: string, start: int, end: int): (r: string)
    ensures |r| <= |s|
  {
    var from := SliceIndex(start, |s|);
    var to := SliceIndex(end, |s|);
    if from < to then s[from..to] else ""
  }

  /** `` `${s.slice(0, 8)}...${s.slice(-8)}` ``. */
  function Abbreviate(s: string): (r: string)
    ensures r == Shape(s)
  {
    Slice(s, 0, KEEP) + ELLIPSIS + Slice(s, -KEEP, |s|)
  }

  /** `formatAddress`: "Unknown" for a falsy value, otherwise the abbreviation. */
  function FormatAddress(address: MaybeString): (r: string)
    ensures !Truthy(address) ==> r == UNKNOWN
    ensures Truthy(address) ==> r == Shape(address.s)
  {
    if !Truthy(address) then UNKNOWN else Abbreviate(address.s)
  }

  /** `shortenSignature`: the abbreviation, with no guard for the empty string. */
  function ShortenSignature(signature: string): (r: string)
    ensures r == Shape(signature)
  {
    Abbreviate(signature)
  }

  function Min(a: int, b: int): int
  {
    if a <= b then a else b
  }

  function Max(a: int, b: int): int
  {
    if a <= b then b else a
  }

  /** Reference shape: at most eight characters from the front, the ellipsis, and
      at most eight from the back. */
  function Shape(s: string): string
  {
    s[..Min(KEEP, |s|)] + ELLIPSIS + s[Max(0, |s| - KEEP)..]
  }

  /** The length of an abbreviation: 19 once the input has 16 characters. */
  lemma AbbreviateLength(s: string)
    ensures |Abbreviate(s)| == 2 * Min(KEEP, |s|) + |ELLIPSIS|
    ensures |s| >= 2 * KEEP ==> |Abbreviate(s)| == 19
  {
  }

  /** A string of at most eight characters appears whole on both sides. */
  lemma AbbreviateShort(s: string)
    requires |s| <= KEEP
    ensures Abbreviate(s) == s + ELLIPSIS + s
  {
  }

  /** The ellipsis always sits right after the kept prefix, which is a prefix of
      the input; the kept suffix is a suffix of the input. */
  lemma AbbreviateParts(s: string)
    ensures var r := Abbreviate(s); var k := Min(KEEP, |s|);
      && |r| == 2 * k + 3
      && r[..k] == s[..k]
      && r[k..k + 3] == ELLIPSIS
      && r[k + 3..] == s[|s| - k..]
  {
  }

  /** `shortenSignature("")` is a bare ellipsis, which `result.signature || ""` can reach. */
  lemma ShortenEmptySignature()
    ensures ShortenSignature("") == ELLIPSIS
  {
    assert SliceIndex(0, 0) == 0 && SliceIndex(KEEP, 0) == 0 && SliceIndex(-KEEP, 0) == 0;
    assert Slice("", 0, KEEP) == [] && Slice("", -KEEP, 0) == [];
  }

  /** On any non-empty string the two helpers agree. */
  lemma FormatAgreesWithShorten(s: string)
    requires |s| > 0
    ensures FormatAddress(Str(s)) == ShortenSignature(s)
  {
  }

  /** "Unknown" never comes out of the abbreviation: `formatAddress` says "Unknown"
      exactly for the falsy values. */
  lemma {:induction false} UnknownIffFalsy(address: MaybeString)
    ensures FormatAddress(address) == UNKNOWN <==> !Truthy(address)
  {
    if Truthy(address) {
      var s := address.s;
      AbbreviateParts(s);
      if Min(KEEP, |s|) == 2 {
        // Same length as "Unknown", but the ellipsis stands where "kno" does.
        assert Abbreviate(s)[2..5] == ELLIPSIS;
        assert UNKNOWN[2] == 'k' != ELLIPSIS[0];
      }
    }
  }
}

=== FILE: primitives.dfy ===
/** Machine integers, public keys and an option type shared by the on-chain model. */
module Primitives {

  /** One past the largest value of a Rust `u64`. */
  const U64_LIMIT: int := 0x1_0000_0000_0000_0000

  /** The smallest value of a Rust `i64`, and one past its largest. */
  const I64_MIN: int := -0x8000_0000_0000_0000
  const I64_LIMIT: int := 0x8000_0000_0000_0000

  type u8 = x: int | 0 <= x < 256

  type u64 = x: int | 0 <= x < U64_LIMIT

  type i64 = x: int | I64_MIN <= x < I64_LIMIT

  /** Length in bytes of a Solana public key. */
  const PUBKEY_LEN: nat := 32

  /** A Solana address: exactly 32 bytes. */
  type Pubkey = s: seq<u8> | |s| == PUBKEY_LEN
    witness [0, 0, 0, 0, 0, 0, 0, 0, 0, 0, 0, 0, 0, 0, 0, 0, 0, 0, 0, 0, 0, 0, 0, 0, 0, 0, 0, 0, 0, 0, 0, 0]

  /** `Pubkey::default()`: the all-zero key, which the program reads as "no mint, move SOL". */
  const DefaultPubkey: Pubkey :=
    [0, 0, 0, 0, 0, 0, 0, 0, 0, 0, 0, 0, 0, 0, 0, 0, 0, 0, 0, 0, 0, 0, 0, 0, 0, 0, 0, 0, 0, 0, 0, 0]

  datatype Option<+T> = None | Some(value: T)
}

=== FILE: scenarios.dfy ===
/** The program's integration scenarios, restated as lemmas about the model: a SOL tip, a
    token tip, an over-long message, a SOL tip beyond the sender's means, and a
    token tip with the sender's or the receiver's account of the wrong mint. */
module TipScenarios {
  import opened Primitives
  import opened Errors
  import opened States
  import opened SendTransaction

  const LAMPORTS_PER_SOL: u64 := 1_000_000_000

  /** An example rent-exempt minimum for a 193-byte account. */
  const RENT: u64 := 2_234_160

  /** The actors' keys: the sender and receiver wallets, two mints, and three
      token accounts. */
  datatype Cast = Cast(
    sender: Pubkey, receiver: Pubkey, mint: Pubkey, otherMint: Pubkey,
    senderTokens: Pubkey, receiverTokens: Pubkey, wrongMintTokens: Pubkey)

  /** Freshly generated keys: all different, and no mint is the default key. */
  predicate Fresh(c: Cast)
  {
    && c.sender != c.receiver
    && c.mint != DefaultPubkey && c.otherMint != c.mint
    && c.senderTokens != c.receiverTokens
    && c.wrongMintTokens != c.senderTokens && c.wrongMintTokens != c.receiverTokens
  }

  /** The sender funded with 10 SOL and holding 1,000,000 units of `mint`; the
      receiver has an empty `mint` account; a third account, of `otherMint`,
      belongs to the sender. */
  function Genesis(c: Cast): World
  {
    World(
      map[c.sender := 10 * LAMPORTS_PER_SOL],
      map[c.senderTokens := TokenAccount(c.mint, c.sender, 1_000_000, Initialized),
          c.receiverTokens := TokenAccount(c.mint, c.receiver, 0, Initialized),
          c.wrongMintTokens := TokenAccount(c.otherMint, c.sender, 0, Initialized)],
      map[])
  }

  function Tip(c: Cast, mint: Pubkey, senderTokens: Pubkey, receiverTokens: Pubkey): Accounts
  {
    Accounts(TipRecordAddress(c.sender, c.receiver), mint, c.sender, c.receiver, senderTokens, receiverTokens)
  }

  function Sys(): Sysvars
  {
    Sysvars(Some(1_700_000_000), RENT)
  }

  /** 0.1 SOL with a short message: the receipt says SOL and the lamports move. */
  lemma SolTipSucceeds(c: Cast, message: seq<u8>)
    requires Fresh(c)
    requires |message| == 27
    ensures var r := SendTip(Genesis(c), Tip(c, DefaultPubkey, c.senderTokens, c.receiverTokens), LAMPORTS_PER_SOL / 10, message, Sys());
      && r.Ok?
      && r.value.1 == DataTransaction(c.sender, c.receiver, LAMPORTS_PER_SOL / 10, message, 1_700_000_000, true)
      && Lamports(r.value.0, c.receiver) == LAMPORTS_PER_SOL / 10
      && Lamports(r.value.0, c.sender) == 10 * LAMPORTS_PER_SOL - LAMPORTS_PER_SOL / 10 - RENT
      && r.value.0.tokenAccounts == Genesis(c).tokenAccounts
  {
  }

  /** 1,000 token units: the receipt says token, and the token balances become
      999,000 and 1,000. */
  lemma TokenTipSucceeds(c: Cast, message: seq<u8>)
    requires Fresh(c)
    requires |message| == 27
    ensures var r := SendTip(Genesis(c), Tip(c, c.mint, c.senderTokens, c.receiverTokens), 1000, message, Sys());
      && r.Ok?
      && !r.value.1.isSol
      && r.value.0.tokenAccounts[c.senderTokens].amount == 999_000
      && r.value.0.tokenAccounts[c.receiverTokens].amount == 1000
  {
  }

  /** 101 bytes of message fail with code 6000. */
  lemma LongMessageFails(c: Cast, message: seq<u8>)
    requires Fresh(c)
    requires |message| == 101
    ensures SendTip(Genesis(c), Tip(c, DefaultPubkey, c.senderTokens, c.receiverTokens), LAMPORTS_PER_SOL / 10, message, Sys())
      == Err(Program(MessageTooLong))
    ensures Code(MessageTooLong) == 6000
  {
  }

  /** 1,000 SOL from a 10 SOL wallet fails in the system program. */
  lemma OverdrawnSolTipFails(c: Cast, message: seq<u8>)
    requires Fresh(c)
    requires |message| == 27
    ensures SendTip(Genesis(c), Tip(c, DefaultPubkey, c.senderTokens, c.receiverTokens), 1000 * LAMPORTS_PER_SOL, message, Sys())
      == Err(InsufficientLamports)
  {
  }

  /** A sender token account of the wrong mint fails with code 6002. */
  lemma WrongSenderMintFails(c: Cast, message: seq<u8>)
    requires Fresh(c)
    requires |message| == 27
    ensures SendTip(Genesis(c), Tip(c, c.mint, c.wrongMintTokens, c.receiverTokens), 1000, message, Sys())
      == Err(Program(InvalidTokenAccount))
    ensures Code(InvalidTokenAccount) == 6002
  {
  }

  /** A receiver token account of the wrong mint fails with code 6002 too. */
  lemma WrongReceiverMintFails(c: Cast, message: seq<u8>)
    requires Fresh(c)
    requires |message| == 27
    ensures SendTip(Genesis(c), Tip(c, c.mint, c.senderTokens, c.wrongMintTokens), 1000, message, Sys())
      == Err(Program(InvalidTokenAccount))
  {
  }
}

=== FILE: send_tip_properties.dfy ===
/** What `send_tip` guarantees: the order its checks fire in, the balances it
    moves, the receipt it writes, and the one-receipt-per-pair consequence of
    its addressing. */
module SendTipProperties {
  import opened Primitives
  import opened Errors
  import opened States
  import opened SendTransaction

  /** The receipt slot a stored receipt belongs in. */
  function SlotOf(r: DataTransaction): RecordAddress
  {
    TipRecordAddress(r.sender, r.receiver)
  }

  /** Lamports held by the sender and the receiver, counting one account once when they coincide. */
  function PairLamports(w: World, sender: Pubkey, receiver: Pubkey): int
  {
    Lamports(w, sender) + (if sender == receiver then 0 else Lamports(w, receiver))
  }

  // ---------------------------------------------------------------------------
  // Error ordering

  /** An over-long message fails with `MessageTooLong` exactly when the account
      constraints, which run first, have passed. */
  lemma MessageTooLongIff(w: World, a: Accounts, amount: u64, message: seq<u8>, sys: Sysvars)
    ensures SendTip(w, a, amount, message, sys) == Err(Program(MessageTooLong)) <==>
      SlotClaimable(w, a, sys.rent) && |message| > MAX_MESSAGE_LEN
  {
  }

  /** A slot address other than the derived one fails Anchor's `seeds` check,
      before anything else. */
  lemma WrongSlotFailsFirst(w: World, a: Accounts, amount: u64, message: seq<u8>, sys: Sysvars)
    requires a.dataTransaction != TipRecordAddress(a.sender, a.receiver)
    ensures SendTip(w, a, amount, message, sys) == Err(ConstraintSeeds)
  {
  }

  /** A sender who cannot pay the slot's rent fails in the account creation, with
      the system program's error, whatever the mint. */
  lemma RentShortfallFails(w: World, a: Accounts, amount: u64, message: seq<u8>, sys: Sysvars)
    requires a.dataTransaction == TipRecordAddress(a.sender, a.receiver)
    requires a.dataTransaction !in w.records
    requires Lamports(w, a.sender) < sys.rent
    ensures SendTip(w, a, amount, message, sys) == Err(InsufficientLamports)
  {
  }

  /** Past the constraints, the message and the clock, whatever error the system or
      token transfer (or the token checks) report is the tip's error, unchanged. */
  lemma ValueMovementErrorSurfaces(w: World, a: Accounts, amount: u64, message: seq<u8>, sys: Sysvars)
    requires SlotClaimable(w, a, sys.rent) && HandlerPrefixPasses(message, sys)
    requires MoveValue(InitRecordSlot(w, a, sys.rent).value, a, amount).Err?
    ensures SendTip(w, a, amount, message, sys) == Err(MoveValue(InitRecordSlot(w, a, sys.rent).value, a, amount).error)
  {
  }

  /** A token tip that passes the handler's checks but asks for more than the source
      holds fails with the token program's insufficient-funds error. */
  lemma TokenShortfallFails(w: World, a: Accounts, amount: u64, message: seq<u8>, sys: Sysvars)
    requires SlotClaimable(w, a, sys.rent) && HandlerPrefixPasses(message, sys)
    requires a.tokenMint != DefaultPubkey
    requires ValidateTokenAccounts(w, a).Ok?
    requires w.tokenAccounts[a.senderTokenAccount].state.Initialized?
    requires w.tokenAccounts[a.receiverTokenAccount].state.Initialized?
    requires w.tokenAccounts[a.senderTokenAccount].amount < amount
    ensures SendTip(w, a, amount, message, sys) == Err(TokenInsufficientFunds)
  {
  }

  /** A taken slot is reported before anything the handler checks. */
  lemma OccupiedSlotFailsFirst(w: World, a: Accounts, amount: u64, message: seq<u8>, sys: Sysvars)
    requires a.dataTransaction == TipRecordAddress(a.sender, a.receiver)
    requires a.dataTransaction in w.records
    ensures SendTip(w, a, amount, message, sys) == Err(AccountAlreadyInUse)
  {
  }

  /** A clock failure surfaces as the runtime's error, not as `ClockError`. */
  lemma ClockFailurePropagatesRaw(w: World, a: Accounts, amount: u64, message: seq<u8>, sys: Sysvars)
    requires SlotClaimable(w, a, sys.rent) && |message| <= MAX_MESSAGE_LEN
    requires sys.clock.None?
    ensures SendTip(w, a, amount, message, sys) == Err(ClockUnavailable)
  {
  }

  /** Three of the five declared errors are never raised: a corollary of the last
      clause of `SendTip`'s contract, spelled out per variant. */
  lemma UnraisedErrors(w: World, a: Accounts, amount: u64, message: seq<u8>, sys: Sysvars)
    ensures SendTip(w, a, amount, message, sys) != Err(Program(InsufficientFunds))
    ensures SendTip(w, a, amount, message, sys) != Err(Program(ReceiverTokenAccountNotInitialized))
    ensures SendTip(w, a, amount, message, sys) != Err(Program(ClockError))
  {
  }

  // ---------------------------------------------------------------------------
  // Native branch

  /** With the constraints, message and clock out of the way, a SOL tip fails for
      lack of lamports exactly when the sender cannot cover the rent plus the amount. */
  lemma NativeInsufficientIff(w: World, a: Accounts, amount: u64, message: seq<u8>, sys: Sysvars)
    requires a.dataTransaction == TipRecordAddress(a.sender, a.receiver)
    requires a.dataTransaction !in w.records
    requires HandlerPrefixPasses(message, sys)
    requires a.tokenMint == DefaultPubkey
    ensures SendTip(w, a, amount, message, sys) == Err(InsufficientLamports) <==>
      Lamports(w, a.sender) < sys.rent + amount
  {
  }

  /** A successful SOL tip pays the receiver the amount and charges the sender the
      amount plus the slot's rent; token accounts and all other balances stay put. */
  lemma NativeSuccessBalances(w: World, a: Accounts, amount: u64, message: seq<u8>, sys: Sysvars)
    requires SendTip(w, a, amount, message, sys).Ok?
    requires a.tokenMint == DefaultPubkey
    ensures var w' := SendTip(w, a, amount, message, sys).value.0;
      && (a.sender != a.receiver ==>
            && Lamports(w', a.receiver) == Lamports(w, a.receiver) + amount
            && Lamports(w', a.sender) == Lamports(w, a.sender) - amount - sys.rent)
      && PairLamports(w', a.sender, a.receiver) + w'.records[a.dataTransaction].lamports
         == PairLamports(w, a.sender, a.receiver)
      && w'.tokenAccounts == w.tokenAccounts
      && (forall k :: k != a.sender && k != a.receiver ==> Lamports(w', k) == Lamports(w, k))
  {
  }

  // ---------------------------------------------------------------------------
  // Token branch

  /** The same checks as `ValidateTokenAccounts` without its `token_mint != default`
      guard. */
  function ValidateWithoutMintGuard(w: World, a: Accounts): Result<(TokenAccount, TokenAccount)>
  {
    if a.senderTokenAccount !in w.tokenAccounts || a.receiverTokenAccount !in w.tokenAccounts then
      Err(TokenAccountUnpackFailed)
    else
      var source := w.tokenAccounts[a.senderTokenAccount];
      var destination := w.tokenAccounts[a.receiverTokenAccount];
      if source.mint != a.tokenMint || destination.mint != a.tokenMint || source.owner != a.sender then
        Err(Program(InvalidTokenAccount))
      else
        Ok((source, destination))
  }

  /** The handler reaches its token checks only with a non-default mint, and there
      the guard `token_mint != default` never fires: dropping it changes nothing. */
  lemma MintGuardNeverFires(w: World, a: Accounts)
    ensures a.tokenMint != DefaultPubkey ==> ValidateTokenAccounts(w, a) == ValidateWithoutMintGuard(w, a)
  {
  }

  /** A token account that does not unpack fails the tip with the token library's
      error before any mint or owner check, whatever the mints. */
  lemma UndeserialisableTokenAccountFailsFirst(w: World, a: Accounts, amount: u64, message: seq<u8>, sys: Sysvars)
    requires SlotClaimable(w, a, sys.rent) && HandlerPrefixPasses(message, sys)
    requires a.tokenMint != DefaultPubkey
    requires a.senderTokenAccount !in w.tokenAccounts || a.receiverTokenAccount !in w.tokenAccounts
    ensures SendTip(w, a, amount, message, sys) == Err(TokenAccountUnpackFailed)
  {
  }

  /** Once both token accounts deserialise, the tip fails with `InvalidTokenAccount`
      exactly when the sender's mint, the receiver's mint or the sender's ownership
      is wrong, and that error wins over any failure the token program would report. */
  lemma InvalidTokenAccountIff(w: World, a: Accounts, amount: u64, message: seq<u8>, sys: Sysvars)
    requires SlotClaimable(w, a, sys.rent) && HandlerPrefixPasses(message, sys)
    requires a.tokenMint != DefaultPubkey
    requires a.senderTokenAccount in w.tokenAccounts && a.receiverTokenAccount in w.tokenAccounts
    ensures SendTip(w, a, amount, message, sys) == Err(Program(InvalidTokenAccount)) <==>
      || w.tokenAccounts[a.senderTokenAccount].mint != a.tokenMint
      || w.tokenAccounts[a.receiverTokenAccount].mint != a.tokenMint
      || w.tokenAccounts[a.senderTokenAccount].owner != a.sender
  {
  }

  /** The world with one token account handed to a new owner. */
  function WithTokenOwner(w: World, key: Pubkey, owner: Pubkey): World
    requires key in w.tokenAccounts
  {
    w.(tokenAccounts := w.tokenAccounts[key := w.tokenAccounts[key].(owner := owner)])
  }

  /** Nobody checks who owns the receiver's token account: re-owning it leaves the
      outcome of the tip, and the receipt, as they were. */
  lemma ReceiverTokenOwnerUnchecked(w: World, a: Accounts, amount: u64, message: seq<u8>, sys: Sysvars, owner: Pubkey)
    requires a.receiverTokenAccount in w.tokenAccounts
    requires a.receiverTokenAccount != a.senderTokenAccount
    ensures var before := SendTip(w, a, amount, message, sys);
      var after := SendTip(WithTokenOwner(w, a.receiverTokenAccount, owner), a, amount, message, sys);
      && before.Ok? == after.Ok?
      && (before.Err? ==> before.error == after.error)
      && (before.Ok? ==> before.value.1 == after.value.1)
  {
  }

  /** A successful token tip moves `amount` from the sender's token account to the
      receiver's, conserving their sum; only the rent leaves the sender's lamports. */
  lemma TokenSuccessBalances(w: World, a: Accounts, amount: u64, message: seq<u8>, sys: Sysvars)
    requires SendTip(w, a, amount, message, sys).Ok?
    requires a.tokenMint != DefaultPubkey
    requires a.senderTokenAccount != a.receiverTokenAccount
    ensures var w' := SendTip(w, a, amount, message, sys).value.0;
      && a.senderTokenAccount in w.tokenAccounts && a.receiverTokenAccount in w.tokenAccounts
      && w'.tokenAccounts.Keys == w.tokenAccounts.Keys
      && w'.tokenAccounts[a.senderTokenAccount].amount == w.tokenAccounts[a.senderTokenAccount].amount - amount
      && w'.tokenAccounts[a.receiverTokenAccount].amount == w.tokenAccounts[a.receiverTokenAccount].amount + amount
      && w'.tokenAccounts[a.senderTokenAccount].amount + w'.tokenAccounts[a.receiverTokenAccount].amount
         == w.tokenAccounts[a.senderTokenAccount].amount + w.tokenAccounts[a.receiverTokenAccount].amount
      && (forall k :: k in w.tokenAccounts && k != a.senderTokenAccount && k != a.receiverTokenAccount ==>
            w'.tokenAccounts[k] == w.tokenAccounts[k])
      && Lamports(w', a.sender) == Lamports(w, a.sender) - sys.rent
      && (forall k :: k != a.sender ==> Lamports(w', k) == Lamports(w, k))
  {
  }

  // ---------------------------------------------------------------------------
  // The receipt

  /** Every receipt written fits the fixed allocation of `8 + INIT_SPACE` bytes. */
  lemma WrittenRecordFits(w: World, a: Accounts, amount: u64, message: seq<u8>, sys: Sysvars)
    requires SendTip(w, a, amount, message, sys).Ok?
    ensures EncodedSize(SendTip(w, a, amount, message, sys).value.1) <= RecordSpace()
  {
    FitsIffWithinSpace(SendTip(w, a, amount, message, sys).value.1);
  }

  /** Every stored receipt sits in the slot derived from its own pair and fits its allocation. */
  predicate RecordsWellPlaced(w: World)
  {
    forall k :: k in w.records ==> k == SlotOf(w.records[k].data) && Fits(w.records[k].data)
  }

  /** A tip keeps every existing receipt as it was and adds one, well placed. */
  lemma SendTipPreservesRecords(w: World, a: Accounts, amount: u64, message: seq<u8>, sys: Sysvars)
    requires RecordsWellPlaced(w)
    requires SendTip(w, a, amount, message, sys).Ok?
    ensures var w' := SendTip(w, a, amount, message, sys).value.0;
      && RecordsWellPlaced(w')
      && w'.records.Keys == w.records.Keys + {TipRecordAddress(a.sender, a.receiver)}
      && (forall k :: k in w.records ==> w'.records[k] == w.records[k])
  {
  }

  /** Tips for different pairs do not contend for a slot: a free slot of another
      pair is still free afterwards. */
  lemma OtherPairsStayFree(w: World, a: Accounts, amount: u64, message: seq<u8>, sys: Sysvars,
                           sender: Pubkey, receiver: Pubkey)
    requires SendTip(w, a, amount, message, sys).Ok?
    requires (sender, receiver) != (a.sender, a.receiver)
    requires TipRecordAddress(sender, receiver) !in w.records
    ensures TipRecordAddress(sender, receiver) !in SendTip(w, a, amount, message, sys).value.0.records
  {
    TipRecordAddressInjective(sender, receiver, a.sender, a.receiver);
  }

  /** Once a pair has been tipped, every later tip between the same two parties,
      in the same order, fails on the taken slot. */
  lemma SecondTipSamePairFails(w: World, a: Accounts, amount: u64, message: seq<u8>, sys: Sysvars,
                               a2: Accounts, amount2: u64, message2: seq<u8>, sys2: Sysvars)
    requires SendTip(w, a, amount, message, sys).Ok?
    requires a2.sender == a.sender && a2.receiver == a.receiver
    requires a2.dataTransaction == TipRecordAddress(a2.sender, a2.receiver)
    ensures SendTip(SendTip(w, a, amount, message, sys).value.0, a2, amount2, message2, sys2) == Err(AccountAlreadyInUse)
  {
  }

  // ---------------------------------------------------------------------------
  // Sequences of tips

  /** One submitted instruction. */
  datatype Call = Call(accounts: Accounts, amount: u64, message: seq<u8>, sysvars: Sysvars)

  /** Submit the calls one after another: a failed call leaves the world as it was.
      Returns the final world and the receipts of the calls that succeeded. */
  function Replay(w: World, calls: seq<Call>): (r: (World, seq<DataTransaction>))
    ensures |r.1| <= |calls|
    ensures w.records.Keys <= r.0.records.Keys
    decreases |calls|
  {
    if |calls| == 0 then (w, [])
    else
      var c := calls[0];
      match SendTip(w, c.accounts, c.amount, c.message, c.sysvars)
      case Ok((w1, record)) =>
        var (wn, records) := Replay(w1, calls[1..]);
        (wn, [record] + records)
      case Err(_) => Replay(w, calls[1..])
  }

  /** The slot facts of a run, read against the slots taken before it (`before`)
      and after it (`after`). */
  predicate SlotsFreshAndDistinct(records: seq<DataTransaction>, before: set<RecordAddress>, after: set<RecordAddress>)
  {
    && (forall i :: 0 <= i < |records| ==> SlotOf(records[i]) !in before && SlotOf(records[i]) in after)
    && (forall i, j :: 0 <= i < j < |records| ==> SlotOf(records[i]) != SlotOf(records[j]))
  }

  /** A receipt whose slot was free before and taken by the middle of a run extends
      a run that was fresh and distinct from the middle on. */
  lemma SlotsFreshAndDistinctCons(record: DataTransaction, rest: seq<DataTransaction>,
                                  before: set<RecordAddress>, mid: set<RecordAddress>, after: set<RecordAddress>)
    requires SlotOf(record) !in before && SlotOf(record) in mid
    requires before <= mid <= after
    requires SlotsFreshAndDistinct(rest, mid, after)
    ensures SlotsFreshAndDistinct([record] + rest, before, after)
  {
    var records := [record] + rest;
    forall i | 0 <= i < |records|
      ensures SlotOf(records[i]) !in before && SlotOf(records[i]) in after
    {
      if i > 0 {
        assert records[i] == rest[i - 1];
      }
    }
    forall i, j | 0 <= i < j < |records|
      ensures SlotOf(records[i]) != SlotOf(records[j])
    {
      assert records[j] == rest[j - 1];
      if i > 0 {
        assert records[i] == rest[i - 1];
      }
    }
  }

  /** Along any run, receipts are never removed, every receipt's slot was free at
      the start and is taken at the end, and no two receipts share a slot. */
  lemma {:induction false} ReplaySlots(w: World, calls: seq<Call>)
    ensures var (wn, records) := Replay(w, calls);
      && w.records.Keys <= wn.records.Keys
      && SlotsFreshAndDistinct(records, w.records.Keys, wn.records.Keys)
    decreases |calls|
  {
    if |calls| > 0 {
      var c := calls[0];
      match SendTip(w, c.accounts, c.amount, c.message, c.sysvars)
      case Ok((w1, record)) =>
        ReplaySlots(w1, calls[1..]);
        var (wn, rest) := Replay(w1, calls[1..]);
        assert Replay(w, calls) == (wn, [record] + rest);
        SlotsFreshAndDistinctCons(record, rest, w.records.Keys, w1.records.Keys, wn.records.Keys);
      case Err(_) =>
        ReplaySlots(w, calls[1..]);
    }
  }

  /** However many tips are submitted, at most one succeeds per ordered
      (sender, receiver) pair. */
  lemma AtMostOneTipPerPair(w: World, calls: seq<Call>)
    ensures var records := Replay(w, calls).1;
      forall i, j :: 0 <= i < j < |records| ==>
        (records[i].sender, records[i].receiver) != (records[j].sender, records[j].receiver)
  {
    ReplaySlots(w, calls);
  }

  /** A failing call changes nothing: a run that starts with it is the run without it,
      and resubmitting it fails again. */
  lemma {:induction false} FailedCallSkipped(w: World, c: Call, rest: seq<Call>)
    requires SendTip(w, c.accounts, c.amount, c.message, c.sysvars).Err?
    ensures Replay(w, [c] + rest) == Replay(w, rest)
    ensures Replay(w, [c, c] + rest) == Replay(w, rest)
  {
    assert ([c] + rest)[1..] == rest;
    assert ([c, c] + rest)[1..] == [c] + rest;
    assert Replay(w, [c, c] + rest) == Replay(w, [c] + rest);
  }
}

=== FILE: send_transaction.dfy ===
/** The `send_tip` instruction: its account constraints, its handler, and the
    system-program and token-program transfers it invokes, as one pure step over
    an abstract world. A failing step returns only an error, so the world the
    caller holds is the one that stays: the runtime's all-or-nothing rollback. */
module SendTransaction {
  import opened Primitives
  import opened Errors
  import opened States

  /** The seed tag `b"tip_transaction"`, byte by byte. */
  const TIP_SEED_TAG: seq<u8> :=
    [116, 105, 112, 95, 116, 114, 97, 110, 115, 97, 99, 116, 105, 111, 110]

  /** A program-derived address, represented by the seed bytes it is derived from.
      The real derivation hashes these seeds with the program id and a bump; the
      hash is taken to be collision-free, so the preimage stands for the address. */
  datatype RecordAddress = ProgramAddress(seeds: seq<u8>)

  /** The receipt slot for an ordered (sender, receiver) pair. */
  function TipRecordAddress(sender: Pubkey, receiver: Pubkey): (a: RecordAddress)
    ensures |a.seeds| == |TIP_SEED_TAG| + 2 * PUBKEY_LEN
    ensures a.seeds[..|TIP_SEED_TAG|] == TIP_SEED_TAG
  {
    ProgramAddress(TIP_SEED_TAG + sender + receiver)
  }

  /** The seeds split back into their two keys: keys have a fixed length, so
      concatenation is unambiguous. */
  lemma TipRecordAddressDecodes(sender: Pubkey, receiver: Pubkey)
    ensures TipRecordAddress(sender, receiver).seeds[|TIP_SEED_TAG|..|TIP_SEED_TAG| + PUBKEY_LEN] == sender
    ensures TipRecordAddress(sender, receiver).seeds[|TIP_SEED_TAG| + PUBKEY_LEN..] == receiver
  {
  }

  /** Two pairs share a slot exactly when they are the same ordered pair. */
  lemma TipRecordAddressInjective(s1: Pubkey, r1: Pubkey, s2: Pubkey, r2: Pubkey)
    ensures TipRecordAddress(s1, r1) == TipRecordAddress(s2, r2) <==> s1 == s2 && r1 == r2
  {
    TipRecordAddressDecodes(s1, r1);
    TipRecordAddressDecodes(s2, r2);
  }

  /** SPL token account state; an uninitialised account is not a token account at all. */
  datatype TokenState = Initialized | Frozen

  datatype TokenAccount = TokenAccount(mint: Pubkey, owner: Pubkey, amount: u64, state: TokenState)

  /** An occupied receipt slot: the rent it holds and the receipt it stores. */
  datatype RecordAccount = RecordAccount(lamports: u64, data: DataTransaction)

  /** The part of the chain the instruction can see.
      `lamports`: native balances (an absent key holds 0);
      `tokenAccounts`: the accounts whose data deserialises as an initialised SPL token account;
      `records`: the occupied receipt slots. */
  datatype World = World(
    lamports: map<Pubkey, u64>,
    tokenAccounts: map<Pubkey, TokenAccount>,
    records: map<RecordAddress, RecordAccount>)

  function Lamports(w: World, key: Pubkey): u64
  {
    if key in w.lamports then w.lamports[key] else 0
  }

  function SetLamports(w: World, key: Pubkey, value: u64): (w': World)
    ensures Lamports(w', key) == value
    ensures forall k :: k != key ==> Lamports(w', k) == Lamports(w, k)
    ensures w'.tokenAccounts == w.tokenAccounts && w'.records == w.records
  {
    w.(lamports := w.lamports[key := value])
  }

  /** The accounts of the `SendTip` context, in declaration order, minus the two program ids. */
  datatype Accounts = Accounts(
    dataTransaction: RecordAddress,
    tokenMint: Pubkey,
    sender: Pubkey,
    receiver: Pubkey,
    senderTokenAccount: Pubkey,
    receiverTokenAccount: Pubkey)

  /** What the instruction reads from the runtime: the clock (`None` when
      `Clock::get` fails) and the rent-exempt minimum for `RecordSpace()` bytes. */
  datatype Sysvars = Sysvars(clock: Option<i64>, rent: u64)

  /** Every way the instruction can fail. Only `Program` carries one of the
      program's own codes; the others come from Anchor, the runtime, the system
      program or the token program. */
  datatype Error =
    | Program(code: TipyError)
      /** Anchor `seeds` constraint: the slot passed is not the derived one. */
    | ConstraintSeeds
      /** System program: the slot already holds an account. */
    | AccountAlreadyInUse
      /** System program: "insufficient lamports" in a transfer or an account creation. */
    | InsufficientLamports
      /** System program: the credited balance would exceed `u64`. */
    | LamportOverflow
      /** `Clock::get()` failed; its error is propagated by `?`. */
    | ClockUnavailable
      /** `TokenAccount::try_deserialize`, which unpacks the data as an SPL token
          account: the data is not 165 bytes or the account is uninitialised, and
          the token library's own program error comes back through `?`. */
    | TokenAccountUnpackFailed
      /** Token program: an account is not an initialised token account. This is the
          same unpack failure as `TokenAccountUnpackFailed`, seen from inside the
          token program; `SendTip` never returns it, because the handler has already
          unpacked both accounts. */
    | TokenUninitializedAccount
      /** Token program: the source or the destination is frozen. */
    | TokenAccountFrozen
      /** Token program: the source holds less than the amount. */
    | TokenInsufficientFunds
      /** Token program: the two accounts are of different mints. */
    | TokenMintMismatch
      /** Token program: the authority does not own the source. */
    | TokenOwnerMismatch
      /** Token program: the credited amount would exceed `u64`. */
    | TokenOverflow

  datatype Result<+T> = Ok(value: T) | Err(error: Error) {
    predicate IsFailure() {
      Err?
    }

    function PropagateFailure<U>(): Result<U>
      requires Err?
    {
      Err(error)
    }

    function Extract(): T
      requires Ok?
    {
      value
    }
  }

  /** The `init, payer = sender, space = 8 + INIT_SPACE, seeds = [...]` constraint:
      check the slot is the derived one, that it is free, and have the sender pay
      its rent. Runs before the handler body. */
  function InitRecordSlot(w: World, a: Accounts, rent: u64): (r: Result<World>)
    ensures r.Ok? <==>
      && a.dataTransaction == TipRecordAddress(a.sender, a.receiver)
      && a.dataTransaction !in w.records
      && rent <= Lamports(w, a.sender)
    ensures r.Err? ==>
              r.error == (
                if a.dataTransaction != TipRecordAddress(a.sender, a.receiver) then ConstraintSeeds
                else if a.dataTransaction in w.records then AccountAlreadyInUse
                else InsufficientLamports)
    ensures r.Ok? ==>
      && Lamports(r.value, a.sender) == Lamports(w, a.sender) - rent
      && (forall k :: k != a.sender ==> Lamports(r.value, k) == Lamports(w, k))
      && r.value.tokenAccounts == w.tokenAccounts
      && r.value.records == w.records
  {
    if a.dataTransaction != TipRecordAddress(a.sender, a.receiver) then
      Err(ConstraintSeeds)
    else if a.dataTransaction in w.records then
      Err(AccountAlreadyInUse)
    else if Lamports(w, a.sender) < rent then
      Err(InsufficientLamports)
    else
      Ok(SetLamports(w, a.sender, Lamports(w, a.sender) - rent))
  }

  /** System program `transfer`: debit `from`, then credit `to` with an overflow check. */
  function SystemTransfer(w: World, from: Pubkey, to: Pubkey, amount: u64): (r: Result<World>)
    ensures r.Err? <==> Lamports(w, from) < amount || (from != to && Lamports(w, to) + amount >= U64_LIMIT)
    ensures r.Err? ==> r.error == (if Lamports(w, from) < amount then InsufficientLamports else LamportOverflow)
    ensures r.Ok? && from != to ==>
      && Lamports(r.value, from) == Lamports(w, from) - amount
      && Lamports(r.value, to) == Lamports(w, to) + amount
    ensures r.Ok? ==> Lamports(r.value, from) + Lamports(r.value, to) == Lamports(w, from) + Lamports(w, to)
    ensures r.Ok? ==> forall k :: k != from && k != to ==> Lamports(r.value, k) == Lamports(w, k)
    ensures r.Ok? ==> r.value.tokenAccounts == w.tokenAccounts && r.value.records == w.records
  {
    if Lamports(w, from) < amount then
      Err(InsufficientLamports)
    else
      var w1 := SetLamports(w, from, Lamports(w, from) - amount);
      if Lamports(w1, to) + amount >= U64_LIMIT then
        Err(LamportOverflow)
      else
        Ok(SetLamports(w1, to, Lamports(w1, to) + amount))
  }

  /** `TokenAccount::try_deserialize` on an account's data: succeeds exactly for
      the initialised (possibly frozen) token accounts. */
  function DeserializeTokenAccount(w: World, key: Pubkey): (r: Result<TokenAccount>)
    ensures r.Ok? <==> key in w.tokenAccounts
    ensures r.Ok? ==> r.value == w.tokenAccounts[key]
    ensures r.Err? ==> r.error == TokenAccountUnpackFailed
  {
    if key in w.tokenAccounts then Ok(w.tokenAccounts[key]) else Err(TokenAccountUnpackFailed)
  }

  /** The handler's manual token-account checks, in source order: deserialise the
      sender's then the receiver's account, then the mint guard, the two mints and
      the sender's ownership. The receiver account's owner is not checked. */
  function ValidateTokenAccounts(w: World, a: Accounts): (r: Result<(TokenAccount, TokenAccount)>)
    ensures r.Ok? ==>
      && a.senderTokenAccount in w.tokenAccounts && a.receiverTokenAccount in w.tokenAccounts
      && r.value == (w.tokenAccounts[a.senderTokenAccount], w.tokenAccounts[a.receiverTokenAccount])
      && a.tokenMint != DefaultPubkey
      && r.value.0.mint == a.tokenMint && r.value.1.mint == a.tokenMint
      && r.value.0.owner == a.sender
    ensures r.Err? ==> r.error in {TokenAccountUnpackFailed, Program(InvalidTokenAccount)}
  {
    var source :- DeserializeTokenAccount(w, a.senderTokenAccount);
    var destination :- DeserializeTokenAccount(w, a.receiverTokenAccount);
    if a.tokenMint == DefaultPubkey then
      Err(Program(InvalidTokenAccount))
    else if source.mint != a.tokenMint then
      Err(Program(InvalidTokenAccount))
    else if destination.mint != a.tokenMint then
      Err(Program(InvalidTokenAccount))
    else if source.owner != a.sender then
      Err(Program(InvalidTokenAccount))
    else
      Ok((source, destination))
  }

  function SetTokenAmount(w: World, key: Pubkey, amount: u64): (w': World)
    requires key in w.tokenAccounts
    ensures key in w'.tokenAccounts
    ensures w'.tokenAccounts[key] == w.tokenAccounts[key].(amount := amount)
    ensures w'.tokenAccounts.Keys == w.tokenAccounts.Keys
    ensures forall k :: k in w.tokenAccounts && k != key ==> w'.tokenAccounts[k] == w.tokenAccounts[k]
    ensures w'.lamports == w.lamports && w'.records == w.records
  {
    w.(tokenAccounts := w.tokenAccounts[key := w.tokenAccounts[key].(amount := amount)])
  }

  /** Token program `Transfer` signed by the account owner, with its checks in its
      own order: both accounts initialised, neither frozen, enough funds, same
      mint, authority owns the source; a self-transfer then stops without moving
      anything; otherwise debit and credit with an overflow check. */
  function TokenTransfer(w: World, source: Pubkey, destination: Pubkey, authority: Pubkey, amount: u64): (r: Result<World>)
    ensures r.Err? <==>
      || source !in w.tokenAccounts || destination !in w.tokenAccounts
      || w.tokenAccounts[source].state.Frozen? || w.tokenAccounts[destination].state.Frozen?
      || w.tokenAccounts[source].amount < amount
      || w.tokenAccounts[source].mint != w.tokenAccounts[destination].mint
      || w.tokenAccounts[source].owner != authority
      || (source != destination && w.tokenAccounts[destination].amount + amount >= U64_LIMIT)
    ensures r.Err? ==>
              r.error == (
                if source !in w.tokenAccounts || destination !in w.tokenAccounts then TokenUninitializedAccount
                else if w.tokenAccounts[source].state.Frozen? || w.tokenAccounts[destination].state.Frozen? then TokenAccountFrozen
                else if w.tokenAccounts[source].amount < amount then TokenInsufficientFunds
                else if w.tokenAccounts[source].mint != w.tokenAccounts[destination].mint then TokenMintMismatch
                else if w.tokenAccounts[source].owner != authority then TokenOwnerMismatch
                else TokenOverflow)
    ensures r.Ok? ==>
      && source in w.tokenAccounts && destination in w.tokenAccounts
      && w.tokenAccounts[source].state.Initialized? && w.tokenAccounts[destination].state.Initialized?
      && amount <= w.tokenAccounts[source].amount
      && w.tokenAccounts[source].mint == w.tokenAccounts[destination].mint
      && w.tokenAccounts[source].owner == authority
    ensures r.Ok? ==> r.value.lamports == w.lamports && r.value.records == w.records
    ensures r.Ok? ==> r.value.tokenAccounts.Keys == w.tokenAccounts.Keys
    ensures r.Ok? && source != destination ==>
      && r.value.tokenAccounts[source].amount == w.tokenAccounts[source].amount - amount
      && r.value.tokenAccounts[destination].amount == w.tokenAccounts[destination].amount + amount
      && r.value.tokenAccounts[source].(amount := 0) == w.tokenAccounts[source].(amount := 0)
      && r.value.tokenAccounts[destination].(amount := 0) == w.tokenAccounts[destination].(amount := 0)
    ensures r.Ok? && source == destination ==> r.value == w
    ensures r.Ok? ==> forall k :: k in w.tokenAccounts && k != source && k != destination ==>
      r.value.tokenAccounts[k] == w.tokenAccounts[k]
  {
    if source !in w.tokenAccounts || destination !in w.tokenAccounts then
      Err(TokenUninitializedAccount)
    else
      var src := w.tokenAccounts[source];
      var dst := w.tokenAccounts[destination];
      if src.state == Frozen || dst.state == Frozen then
        Err(TokenAccountFrozen)
      else if src.amount < amount then
        Err(TokenInsufficientFunds)
      else if src.mint != dst.mint then
        Err(TokenMintMismatch)
      else if src.owner != authority then
        Err(TokenOwnerMismatch)
      else if source == destination then
        Ok(w)
      else if dst.amount + amount >= U64_LIMIT then
        Err(TokenOverflow)
      else
        var w1 := SetTokenAmount(w, source, src.amount - amount);
        Ok(SetTokenAmount(w1, destination, dst.amount + amount))
  }

  /** The receipt the handler fills in, field by field. */
  function NewRecord(a: Accounts, amount: u64, message: seq<u8>, timestamp: i64): (r: DataTransaction)
    ensures TipRecordAddress(r.sender, r.receiver) == TipRecordAddress(a.sender, a.receiver)
    ensures r.isSol <==> a.tokenMint == DefaultPubkey
    ensures Fits(r) <==> |message| <= MAX_MESSAGE_LEN
  {
    DataTransaction(a.sender, a.receiver, amount, message, timestamp, a.tokenMint == DefaultPubkey)
  }

  /** The account constraints pass: the slot is the derived one, it is free and
      the sender can pay its rent. */
  predicate SlotClaimable(w: World, a: Accounts, rent: u64)
  {
    && a.dataTransaction == TipRecordAddress(a.sender, a.receiver)
    && a.dataTransaction !in w.records
    && rent <= Lamports(w, a.sender)
  }

  /** The handler gets past its message check and its clock read. */
  predicate HandlerPrefixPasses(message: seq<u8>, sys: Sysvars)
  {
    |message| <= MAX_MESSAGE_LEN && sys.clock.Some?
  }

  /** A SOL tip can be paid: the sender covers the slot's rent and then the amount,
      and a distinct receiver's balance stays within `u64`. */
  predicate NativeTipFunded(w: World, a: Accounts, amount: u64, rent: u64)
  {
    && rent + amount <= Lamports(w, a.sender)
    && (a.sender == a.receiver || Lamports(w, a.receiver) + amount < U64_LIMIT)
  }

  /** A token tip can be paid: both token accounts are initialised and unfrozen, of
      the tip's mint, the sender owns the source and holds enough, and a distinct
      destination's balance stays within `u64`. Who owns the destination does not matter. */
  predicate TokenTipValid(w: World, a: Accounts, amount: u64)
  {
    && a.senderTokenAccount in w.tokenAccounts && a.receiverTokenAccount in w.tokenAccounts
    && var source := w.tokenAccounts[a.senderTokenAccount];
    var destination := w.tokenAccounts[a.receiverTokenAccount];
    && source.mint == a.tokenMint && destination.mint == a.tokenMint
    && source.owner == a.sender
    && source.state.Initialized? && destination.state.Initialized?
    && amount <= source.amount
    && (a.senderTokenAccount == a.receiverTokenAccount || destination.amount + amount < U64_LIMIT)
  }

  /** The value movement after the receipt is filled: SOL when the mint is the
      default key, otherwise the token checks and an SPL transfer. */
  function MoveValue(w: World, a: Accounts, amount: u64): (r: Result<World>)
    ensures r.Ok? ==> r.value.records == w.records
    ensures a.tokenMint == DefaultPubkey ==> r == SystemTransfer(w, a.sender, a.receiver, amount)
    ensures a.tokenMint != DefaultPubkey && ValidateTokenAccounts(w, a).Err? ==>
      r == Err(ValidateTokenAccounts(w, a).error)
    ensures a.tokenMint != DefaultPubkey && ValidateTokenAccounts(w, a).Ok? ==>
      r == TokenTransfer(w, a.senderTokenAccount, a.receiverTokenAccount, a.sender, amount)
    ensures a.tokenMint != DefaultPubkey ==> (r.Ok? <==> TokenTipValid(w, a, amount))
    ensures a.tokenMint != DefaultPubkey ==> r.Ok? ==> r.value.lamports == w.lamports
  {
    if a.tokenMint == DefaultPubkey then
      SystemTransfer(w, a.sender, a.receiver, amount)
    else
      var _ :- ValidateTokenAccounts(w, a);
      TokenTransfer(w, a.senderTokenAccount, a.receiverTokenAccount, a.sender, amount)
  }

  /** The whole instruction: account constraints, then the handler. On success it
      returns the new world and the receipt it stored. */
  function SendTip(w: World, a: Accounts, amount: u64, message: seq<u8>, sys: Sysvars): (r: Result<(World, DataTransaction)>)
    ensures a.tokenMint == DefaultPubkey ==>
      (r.Ok? <==> SlotClaimable(w, a, sys.rent) && HandlerPrefixPasses(message, sys) && NativeTipFunded(w, a, amount, sys.rent))
    ensures a.tokenMint != DefaultPubkey ==>
      (r.Ok? <==> SlotClaimable(w, a, sys.rent) && HandlerPrefixPasses(message, sys) && TokenTipValid(w, a, amount))
    ensures r.Ok? ==>
      && sys.clock.Some?
      && r.value.1 == DataTransaction(a.sender, a.receiver, amount, message, sys.clock.value, a.tokenMint == DefaultPubkey)
      && Fits(r.value.1)
    ensures r.Ok? ==>
      && a.dataTransaction == TipRecordAddress(a.sender, a.receiver)
      && a.dataTransaction !in w.records
      && r.value.0.records == w.records[a.dataTransaction := RecordAccount(sys.rent, r.value.1)]
    ensures r.Err? && r.error.Program? ==> r.error.code in {MessageTooLong, InvalidTokenAccount}
    ensures InitRecordSlot(w, a, sys.rent).Err? ==> r == Err(InitRecordSlot(w, a, sys.rent).error)
    ensures SlotClaimable(w, a, sys.rent) && HandlerPrefixPasses(message, sys) &&
            MoveValue(InitRecordSlot(w, a, sys.rent).value, a, amount).Err? ==>
              r == Err(MoveValue(InitRecordSlot(w, a, sys.rent).value, a, amount).error)
  {
    var w1 :- InitRecordSlot(w, a, sys.rent);
    if |message| > MAX_MESSAGE_LEN then
      Err(Program(MessageTooLong))
    else if sys.clock.None? then
      Err(ClockUnavailable)
    else
      var record := NewRecord(a, amount, message, sys.clock.value);
      var w2 :- MoveValue(w1, a, amount);
      Ok((w2.(records := w2.records[a.dataTransaction := RecordAccount(sys.rent, record)]), record))
  }
}

=== FILE: states.dfy ===
/** The tip receipt stored on chain and the space reserved for it. */
module States {
  import opened Primitives

  /** `#[max_len(100)]` on the message field. */
  const MAX_MESSAGE_LEN: nat := 100

  /** Anchor prefixes every account's data with an 8-byte discriminator. */
  const DISCRIMINATOR_LEN: nat := 8

  /** The receipt. `message` is the UTF-8 encoding of the Rust `String`, so its length is `String::len`. */
  datatype DataTransaction = DataTransaction(
    sender: Pubkey,
    receiver: Pubkey,
    amount: u64,
    message: seq<u8>,
    timestamp: i64,
    isSol: bool)

  /** Borsh size of each field, in declaration order, for a message of `messageLen` bytes:
      two keys, a `u64`, a `u32` length prefix plus the bytes, an `i64`, a `bool`. */
  function FieldSizes(messageLen: nat): (sizes: seq<nat>)
    ensures |sizes| == 6
    ensures sizes[3] == 4 + messageLen
    ensures sizes[0] + sizes[1] + sizes[2] + sizes[4] + sizes[5] == 81
  {
    [PUBKEY_LEN, PUBKEY_LEN, 8, 4 + messageLen, 8, 1]
  }

  function Sum(xs: seq<nat>): nat
  {
    if |xs| == 0 then 0 else xs[0] + Sum(xs[1..])
  }

  /** The six field sizes add up to 85 fixed bytes plus the message. */
  lemma FieldSizesTotal(messageLen: nat)
    ensures Sum(FieldSizes(messageLen)) == 85 + messageLen
  {
    var sizes := FieldSizes(messageLen);
    assert sizes[5..][1..] == [];
    assert Sum(sizes[5..]) == 1;
    assert sizes[4..][1..] == sizes[5..];
    assert Sum(sizes[4..]) == 9;
    assert sizes[3..][1..] == sizes[4..];
    assert Sum(sizes[3..]) == 13 + messageLen;
    assert sizes[2..][1..] == sizes[3..];
    assert Sum(sizes[2..]) == 21 + messageLen;
    assert sizes[1..][1..] == sizes[2..];
    assert Sum(sizes[1..]) == 53 + messageLen;
  }

  /** `DataTransaction::INIT_SPACE`: the fields at their maximum size. */
  function InitSpace(): (n: nat)
    ensures n == 32 + 32 + 8 + (4 + 100) + 8 + 1
  {
    FieldSizesTotal(MAX_MESSAGE_LEN);
    Sum(FieldSizes(MAX_MESSAGE_LEN))
  }

  /** `space = 8 + DataTransaction::INIT_SPACE`: the bytes allocated for every receipt, whatever its message. */
  function RecordSpace(): (n: nat)
    ensures n == 193
  {
    DISCRIMINATOR_LEN + InitSpace()
  }

  /** Bytes a given receipt occupies once serialised behind its discriminator. */
  function EncodedSize(r: DataTransaction): (n: nat)
    ensures n == DISCRIMINATOR_LEN + 85 + |r.message|
  {
    FieldSizesTotal(|r.message|);
    DISCRIMINATOR_LEN + Sum(FieldSizes(|r.message|))
  }

  /** A receipt whose message respects `max_len`. */
  predicate Fits(r: DataTransaction)
  {
    |r.message| <= MAX_MESSAGE_LEN
  }

  /** The message bound is exactly what makes a receipt fit the fixed allocation. */
  lemma FitsIffWithinSpace(r: DataTransaction)
    ensures Fits(r) <==> EncodedSize(r) <= RecordSpace()
    ensures Fits(r) ==> RecordSpace() - EncodedSize(r) == MAX_MESSAGE_LEN - |r.message|
  {
  }
}
